=== FILE: README.md ===
# Trade-signal bot: the command interpreter

This project models the core of a Telegram trade-signal bot: the message
handler `handle_message` in `trade_bot.py` and the position table
`last_trade_messages` that it reads and writes. Each chat line is
lower-cased, stripped and split into words. It is then one of four things:

- `close all`, which closes every position that is not long-term, each
  notice threaded as a reply to the trade notice that opened the position;
- `close <symbol>`, which closes one position;
- `buy ...` or `sell ...`, which posts a trade notice to the group and
  records the symbol's anchor message;
- anything else, which is ignored.

The model is pure. One step takes the position table and a line, and yields
the new table together with the list of messages the bot sends. Each
message is an `Output` record: a group notice with its fields and an
optional reply-to anchor, or the usage hint posted as a reply to the
command in the chat it came from. Two
things come from outside the handler, so they are parameters of the step:

- `sentId`, the message id the platform assigns to the trade notice when it
  is sent;
- `time`, the rendered UTC+8 timestamp.

Modules:

- `Options` defines `Option`.
- `Text` models the Python string operations the handler uses, restricted
  to ASCII: `lower`, `upper`, `strip`, `split` and `isdigit`. It also
  proves `split`'s round trip with `" ".join` and that `strip` before
  `split` changes nothing.
- `Positions` models the table as an insertion-ordered association list.
  Assignment overwrites a symbol's entry in place and appends a new symbol
  at the end, as a Python dict does. `ToMap` is its map view.
- `Extract` holds the symbol scan and the price scan of a buy/sell command.
- `Interpreter` holds the step (`Step`, `Dispatch`) and its three branch
  functions: `CloseAll` (trade_bot.py:26-56), `CloseOne`
  (trade_bot.py:59-81) and `Open` (trade_bot.py:84-119). It also holds the
  close-all loop as the source runs it (`CloseAllLoop`), proved equal to
  `CloseAll`.
- `Behaviour` proves, branch by branch, what each kind of line sends and
  what it does to the table.
- `Session` models a sequence of lines against one table. It proves the
  open-then-close round trip: for any symbol other than `ALL`, a close
  notice threads to the message that opened the position, or, for a
  long-term position, the close is refused.
- `Examples` states what the model does on concrete lines.

The code is followed where a prose description of the bot could be read
differently:

- The price test deletes the first `.` and asks whether what is left is all
  digits. So `.5` and `5.` count as prices, and `.` and `1.2.3` do not.
- `close all` is recognised by comparing the whole stripped text, so
  `close  all` with two inner spaces is a close-single command for the
  symbol `ALL`.
- For the same reason `close all` with a single space, in any case, never
  reaches the close-single branch for a position opened for the symbol
  `ALL` (`buy all 100`). Any other line whose first two words are `close`
  and `all`, such as `close  all`, `close<TAB>all` or `close all now`,
  closes that position on its own.
- Closing never removes an entry from the table. A closed position can be
  closed again, and close-all threads a notice to every symbol whose
  latest buy/sell was not long-term. A later buy/sell for a symbol
  overwrites its entry, so only that latest notice is an anchor.

## Model

| member | source | states |
|---|---|---|
| Text.StripSpec | trade_bot.py:19 | `strip()` yields a contiguous slice of the line with no whitespace at either end; the result is empty exactly when the line is all whitespace |
| Text.SplitSpec | trade_bot.py:20 | every token of `split()` is a non-empty run without whitespace; there are no tokens exactly when the text is all whitespace |
| Text.SplitJoin | trade_bot.py:20 | splitting undoes joining words with single spaces |
| Text.SplitKeepsContent | trade_bot.py:20 | the tokens, concatenated, are exactly the non-whitespace characters of the text in order |
| Text.SplitOfStrip | trade_bot.py:19-20 | splitting the stripped text gives the same words as splitting the raw text |
| Text.SplitSpacedPair | trade_bot.py:20 | two words separated by any non-empty whitespace run split into exactly those two words |
| Text.UpperAfterLower | trade_bot.py:60 | upper-casing a lower-cased word gives its upper-case form; the result is upper case, and upper case is a fixed point |
| Positions.Lookup | trade_bot.py:61-62 | `symbol in table`: absent exactly when the symbol is not a key; when present, the position stored in some entry for it |
| Positions.Put | trade_bot.py:119 | assignment adds the symbol to the keys and grows the table only for a new symbol; existing entries keep their order; the symbol then maps to the new position |
| Positions.PutKeepsOthers | trade_bot.py:119 | assigning one symbol leaves every other symbol's lookup unchanged |
| Positions.PutKeepsDistinct | trade_bot.py:119 | assignment keeps one entry per symbol |
| Positions.PutIsMapUpdate | trade_bot.py:119 | in the map view, assignment is exactly the map update of that one key |
| Positions.LookupFindsEntry | trade_bot.py:61-62 | with one entry per symbol, the lookup yields a position exactly when that entry is in the table |
| Extract.FindSymbol | trade_bot.py:88-91 | no symbol exactly when every word is a stop word; otherwise the upper-cased form of the first non-stop word |
| Extract.FindSymbolIsFirst | trade_bot.py:89 | the first non-stop word is the one found, the converse of `FindSymbol`'s contract |
| Extract.FindSymbolUpperCase | trade_bot.py:89 | the symbol found is upper case |
| Extract.PriceTokenShape | trade_bot.py:90 | a word passes the price test exactly when it has only digits and dots, at most one dot, and at least one digit |
| Extract.FindPrice | trade_bot.py:90 | no price exactly when no word passes the price test; otherwise the last word that passes it |
| Extract.FindPriceIsLast | trade_bot.py:90 | the last qualifying word is the one found, the converse of `FindPrice`'s contract |
| Interpreter.CloseNotices | trade_bot.py:35-44 | close-all sends at most one notice per entry, and each is a close notice threaded to an anchor message |
| Interpreter.CloseNoticesAppend | trade_bot.py:35 | the close notices of a concatenated table are the concatenated close notices, so they come in table order |
| Interpreter.Dispatch | trade_bot.py:22-120 | no line removes a symbol from the table; a line adds at most one entry; the table changes only when exactly one trade notice is sent |
| Interpreter.CloseAllLoop | trade_bot.py:27-56 | the loop with its `closed_any` flag sends exactly the close-all messages |
| Behaviour.SilentIffIgnored | trade_bot.py:22-120 | a line sends nothing exactly when it has no words, starts with none of `close`, `buy`, `sell`, or is a bare `close`; the table is then unchanged |
| Behaviour.CloseAllOnEmptyTable | trade_bot.py:26-32 | `close all` on an empty table sends one "no active positions" warning and nothing else |
| Behaviour.CloseNoticesMatchEntries | trade_bot.py:35-44 | close-all threads a close notice for symbol `s` to message `id` exactly when the table holds `s` short-term with anchor `id` |
| Behaviour.CloseNoticesEmpty | trade_bot.py:34-44 | close-all sends no per-symbol notice exactly when every position is long-term |
| Behaviour.CloseNoticesDistinct | trade_bot.py:35-44 | close-all closes each symbol at most once |
| Behaviour.CloseAllOnNonEmptyTable | trade_bot.py:34-56 | on a non-empty table: the close notices in table order, then one summary, "all closed" exactly when some position is short-term; the table is unchanged |
| Behaviour.CloseAllAgreesWithCloseOne | trade_bot.py:35-75 | close-all threads a close notice for `s` exactly when `close s` would send that same notice |
| Behaviour.CloseSingle | trade_bot.py:59-81 | `close <word>` sends one group message for the upper-cased word: "not found", "long-term, not closed" or a close notice threaded to the anchor, by what the table holds; the table is unchanged |
| Behaviour.OpenTrade | trade_bot.py:84-119 | buy/sell with a symbol sends one trade notice: marker and action from the first word, long-term flag exactly when `long` or `spot` is a word, last price-like word, the given time; the table is the assignment of the symbol to the sent message and that flag, so an existing symbol keeps its place, and nothing else changes |
| Behaviour.OpenKeepsOtherSymbols | trade_bot.py:119 | a trade notice changes no other symbol's entry |
| Behaviour.StepIsOpen | trade_bot.py:22-84 | a line whose first word is `buy` or `sell` matches neither close branch and takes the buy/sell branch |
| Behaviour.FormatHintIffNoSymbol | trade_bot.py:88-93 | the usage hint is replied to the command exactly for a buy/sell command made only of stop words, and then nothing else is sent and the table is unchanged |
| Behaviour.StepIgnoresCase | trade_bot.py:19 | a line, its lower-cased form and its upper-cased form do the same thing |
| Behaviour.SymbolIsUpperWord | trade_bot.py:89 | the symbol of a command is a single upper-case word |
| Behaviour.StepPreservesWellFormed | trade_bot.py:84-119 | every step keeps one entry per symbol, each key an upper-case word |
| Session.Run | trade_bot.py:13-120 | handling lines in order keeps the table well formed, never drops a symbol, and adds at most one entry per line |
| Session.CloseLineWords | trade_bot.py:19-60 | `close <SYMBOL>` for an upper-case word other than `ALL` is a close-single command for exactly that symbol |
| Session.OpenThenClose | trade_bot.py:59-119 | after a trade notice for a symbol other than `ALL`, `close <symbol>` replies to that notice's message, or refuses for a long-term position; the table is unchanged |
| Examples.PriceScan | trade_bot.py:90 | in `buy btc at 45000.5` the price is `45000.5` |
| Examples.NoPriceScan | trade_bot.py:90 | `sell sol` has no price |
| Examples.BareDotEndsArePrices | trade_bot.py:90 | `.5` and `5.` pass the price test |
| Examples.DotsAreNotPrices | trade_bot.py:90 | `.` and `1.2.3` fail the price test |
| Examples.SymbolScan | trade_bot.py:89 | the symbol skips stop words wherever they stand; a command of stop words has none |
| Examples.BuySolOpen | trade_bot.py:84-119 | the words `buy sol 100` send a green buy notice for `SOL` at `100` and record `SOL` short-term |
| Examples.BuySolStep | trade_bot.py:19-119 | the line `buy sol 100` sends a green buy notice for `SOL` at `100` and assigns `SOL` short-term to the sent message |
| Examples.ShoutedBuySol | trade_bot.py:19 | `BUY SOL 100` does what `buy sol 100` does |
| Examples.CloseAllPadded | trade_bot.py:19-26 | `  CLOSE ALL ` normalises to `close all` |
| Examples.DoubleSpacedCloseAll | trade_bot.py:26-80 | `close  all` with two inner spaces is a close-single command for `ALL`; with no `ALL` position it sends "no position found" |
| Examples.CloseSymbolAllIsCloseAll | trade_bot.py:19-26 | `close ALL` with a single space lower-cases to `close all` and takes the close-all branch, never the close-single branch for `ALL` |
| Examples.DoubleSpacedClosesAll | trade_bot.py:26-75 | `close  all` with two inner spaces closes a short-term `ALL` position on its own, threaded to its anchor message; the table is unchanged |

## Left out

- The Telegram client, the bot token, `.env` loading, `main` and polling
  (trade_bot.py:1-8, 123-130) are not modelled. They are I/O.
- The group chat id (trade_bot.py:9) is not modelled. Every group notice
  goes to the one group, so `Group` carries no chat id.
- The message texts, with their emoji, Markdown and the `USDT` suffix, are
  not modelled as strings. Each is a `Notice` variant carrying the fields
  the text shows.
- The clock (trade_bot.py:96-97) is a parameter: `time` is the already
  rendered string.
- `sent.message_id` (trade_bot.py:112-119) is a parameter: `sentId` is
  whatever the platform returns.
- A failed send is not modelled. The model assumes every send succeeds;
  in the source, an exception would abort the handler before the table
  update. One such failure depends on the input: the close notices and
  the trade notice (trade_bot.py:70-75, 112-116) are sent as Markdown, so
  a symbol with an unmatched `_`, `*` or `` ` `` (as in `buy sol_x 100`)
  could plausibly be refused by the platform. The table write at
  trade_bot.py:119 would then not happen, while the model records
  `SOL_X`.
- Concurrency is not modelled. Handlers run one after another
  (`Session.Run`); interleaving of the async handler at its `await` points
  is not represented.
- `lower`, `upper`, `isspace` and `isdigit` are modelled for ASCII only.
  Python's Unicode case mappings, whitespace and digit classes are not.
- The price is kept as the word itself (`Option<string>`). A missing price
  is `None`, which the source renders as the text `None`.
- The webhook endpoint is not part of this model.

=== FILE: behaviour.dfy ===
/** What one inbound line does, branch by branch: which messages are sent,
    to whom, threaded to what, and what happens to the position table. */
module Behaviour {
  import opened Options
  import opened Text
  import opened Positions
  import opened Extract
  import opened Interpreter

  /** The line is ignored: it has no words, its first word is none of
      `close`, `buy`, `sell`, or it is a bare `close`. */
  predicate Ignored(words: seq<string>) {
    || |words| == 0
    || (words[0] != "close" && words[0] != "buy" && words[0] != "sell")
    || words == ["close"]
  }

  /** Some table entry is not long-term. */
  predicate HasShortTerm(t: Table) {
    exists i :: 0 <= i < |t| && !t[i].pos.isLongTerm
  }

  /** `close all` is the two words `close` and `all`. */
  lemma CloseAllWords()
    ensures Split("close all") == ["close", "all"]
  {
    assert JoinSpaces(["close", "all"]) == "close all";
    SplitJoin(["close", "all"]);
  }

  /** A line sends nothing exactly when it is ignored, and then the table
      is left as it was. */
  lemma SilentIffIgnored(t: Table, line: string, sentId: int, time: string)
    ensures Ignored(Words(line)) ==> Step(t, line, sentId, time) == StepResult(t, [])
    ensures Step(t, line, sentId, time).outputs == [] ==> Ignored(Words(line))
    ensures Step(t, line, sentId, time).outputs == [] ==> Step(t, line, sentId, time).table == t
  {
    if NormalizedText(line) == "close all" {
      CloseAllWords();
    }
  }

  /** `close all` on an empty table: one "no active positions" warning. */
  lemma CloseAllOnEmptyTable(line: string, sentId: int, time: string)
    requires NormalizedText(line) == "close all"
    ensures Step([], line, sentId, time) == StepResult([], [Group(NoActivePositions, None)])
  {
    CloseAllWords();
  }

  /** A close notice of close-all stands for a non-long-term table entry
      with that symbol and anchor message, and every such entry gets one. */
  lemma {:induction false} CloseNoticesMatchEntries(t: Table, s: string, id: int)
    ensures Group(CloseNotice(s), Some(id)) in CloseNotices(t)
            <==> Entry(s, Position(id, false)) in t
  {
    if t != [] {
      CloseNoticesMatchEntries(t[1..], s, id);
      assert t == [t[0]] + t[1..];
    }
  }

  /** Close-all sends no per-symbol notice exactly when every position is
      long-term. */
  lemma CloseNoticesEmpty(t: Table)
    ensures CloseNotices(t) == [] <==> !HasShortTerm(t)
  {
    var out := CloseNotices(t);
    if out != [] {
      var o := out[0];
      CloseNoticesMatchEntries(t, o.notice.symbol, o.replyTo.value);
      assert o in out;
    }
    if HasShortTerm(t) {
      var i :| 0 <= i < |t| && !t[i].pos.isLongTerm;
      CloseNoticesMatchEntries(t, t[i].symbol, t[i].pos.msgId);
      assert t[i] == Entry(t[i].symbol, Position(t[i].pos.msgId, false));
    }
  }

  /** Every symbol of a close-all run is closed at most once. */
  lemma {:induction false} CloseNoticesDistinct(t: Table)
    requires DistinctKeys(t)
    ensures var out := CloseNotices(t);
            forall i, j :: 0 <= i < j < |out| ==> out[i].notice.symbol != out[j].notice.symbol
  {
    if t != [] {
      var rest := CloseNotices(t[1..]);
      CloseNoticesDistinct(t[1..]);
      HeadNotInRest(t);
      forall j | 0 <= j < |rest| ensures rest[j].notice.symbol != t[0].symbol {
        var o := rest[j];
        CloseNoticesMatchEntries(t[1..], o.notice.symbol, o.replyTo.value);
        assert o in rest;
      }
    }
  }

  /** `close all` on a non-empty table: the close notices of `CloseNotices`
      (one per non-long-term entry, replying to its anchor message, in table
      order), then exactly one summary, which says that positions were
      closed exactly when some position is not long-term. The table is not
      modified. */
  lemma CloseAllOnNonEmptyTable(t: Table, line: string, sentId: int, time: string)
    requires NormalizedText(line) == "close all"
    requires t != []
    ensures var r := Step(t, line, sentId, time);
            && r.table == t
            && |r.outputs| == |CloseNotices(t)| + 1
            && r.outputs[..|r.outputs| - 1] == CloseNotices(t)
            && r.outputs[|r.outputs| - 1]
               == Group(if HasShortTerm(t) then AllShortMidClosed else OnlyLongTermOpen, None)
  {
    CloseAllWords();
    CloseNoticesEmpty(t);
    var closes := CloseNotices(t);
    assert (closes + [Group(if closes != [] then AllShortMidClosed else OnlyLongTermOpen, None)])[..|closes|] == closes;
  }

  /** In a table without duplicate keys, close-all threads a close notice to
      message `id` for symbol `s` exactly when `s` is held short-term with
      anchor `id`; this is also exactly what `close s` would send. */
  lemma CloseAllAgreesWithCloseOne(t: Table, s: string, id: int)
    requires DistinctKeys(t)
    ensures Group(CloseNotice(s), Some(id)) in CloseNotices(t)
            <==> Lookup(t, s) == Some(Position(id, false))
    ensures Group(CloseNotice(s), Some(id)) in CloseNotices(t)
            <==> CloseOne(t, s) == Group(CloseNotice(s), Some(id))
  {
    CloseNoticesMatchEntries(t, s, id);
    LookupFindsEntry(t, s, Position(id, false));
  }

  /** `close <word>`: exactly one group message for the upper-cased word,
      chosen by what the table holds for it; the table is not modified. */
  lemma CloseSingle(t: Table, line: string, sentId: int, time: string)
    requires |Words(line)| >= 2 && Words(line)[0] == "close"
    requires NormalizedText(line) != "close all"
    ensures var r := Step(t, line, sentId, time);
            var symbol := Upper(Words(line)[1]);
            && r.table == t
            && |r.outputs| == 1
            && (Lookup(t, symbol).None? ==> r.outputs[0] == Group(NoPositionFound(symbol), None))
            && (Lookup(t, symbol).Some? && Lookup(t, symbol).value.isLongTerm ==>
                  r.outputs[0] == Group(LongTermNotClosed(symbol), None))
            && (Lookup(t, symbol).Some? && !Lookup(t, symbol).value.isLongTerm ==>
                  r.outputs[0] == Group(CloseNotice(symbol), Some(Lookup(t, symbol).value.msgId)))
  {
  }

  /** `buy`/`sell` with a symbol: one trade notice to the group, whose marker
      and action follow the first word, whose long-term flag is set exactly
      when `long` or `spot` is among the words, and whose price is the last
      number-like word; then the table maps the symbol to the sent message
      and that flag, every other symbol keeping its entry and its place
      in the table's order (`Put`). */
  lemma OpenTrade(t: Table, line: string, sentId: int, time: string)
    requires |Words(line)| > 0 && (Words(line)[0] == "buy" || Words(line)[0] == "sell")
    requires exists i :: 0 <= i < |Words(line)| && !IsStopword(Words(line)[i])
    ensures var words := Words(line);
            var r := Step(t, line, sentId, time);
            var symbol := FindSymbol(words).value;
            var longTerm := "long" in words || "spot" in words;
            && |r.outputs| == 1
            && r.outputs[0].Group? && r.outputs[0].replyTo.None?
            && r.outputs[0].notice.TradeSignal?
            && r.outputs[0].notice.symbol == symbol
            && (r.outputs[0].notice.emoji == Green <==> words[0] == "buy")
            && (r.outputs[0].notice.action == Buy <==> words[0] == "buy")
            && r.outputs[0].notice.price == FindPrice(words)
            && r.outputs[0].notice.time == time
            && r.outputs[0].notice.longTerm == longTerm
            && r.table == Put(t, symbol, Position(sentId, longTerm))
            && Lookup(r.table, symbol) == Some(Position(sentId, longTerm))
            && ToMap(r.table) == ToMap(t)[symbol := Position(sentId, longTerm)]
  {
    var words := Words(line);
    var symbol := FindSymbol(words).value;
    var longTerm := "long" in words || "spot" in words;
    if NormalizedText(line) == "close all" {
      CloseAllWords();
    }
    PutIsMapUpdate(t, symbol, Position(sentId, longTerm));
  }

  /** A line whose first word is `buy` or `sell` takes the buy/sell branch. */
  lemma StepIsOpen(t: Table, line: string, sentId: int, time: string)
    requires |Words(line)| > 0 && (Words(line)[0] == "buy" || Words(line)[0] == "sell")
    ensures Step(t, line, sentId, time) == Open(t, Words(line), sentId, time)
  {
    if NormalizedText(line) == "close all" {
      CloseAllWords();
    }
  }

  /** A buy/sell trade notice overwrites only its own symbol's entry. */
  lemma OpenKeepsOtherSymbols(t: Table, line: string, sentId: int, time: string, k: string)
    requires |Words(line)| > 0 && (Words(line)[0] == "buy" || Words(line)[0] == "sell")
    requires FindSymbol(Words(line)) != Some(k)
    ensures Lookup(Step(t, line, sentId, time).table, k) == Lookup(t, k)
  {
    if NormalizedText(line) == "close all" {
      CloseAllWords();
    }
    var words := Words(line);
    if FindSymbol(words).Some? {
      PutKeepsOthers(t, FindSymbol(words).value, Position(sentId, "long" in words || "spot" in words), k);
    }
  }

  /** The usage hint is replied to the command, and nothing else is sent, exactly
      for a buy/sell command made only of stop words; the table is then
      unchanged. */
  lemma FormatHintIffNoSymbol(t: Table, line: string, sentId: int, time: string)
    ensures var words := Words(line);
            var r := Step(t, line, sentId, time);
            FormatHintReply in r.outputs
            <==> (|words| > 0 && (words[0] == "buy" || words[0] == "sell")
                  && forall i :: 0 <= i < |words| ==> IsStopword(words[i]))
    ensures var words := Words(line);
            var r := Step(t, line, sentId, time);
            FormatHintReply in r.outputs ==> r == StepResult(t, [FormatHintReply])
  {
    var words := Words(line);
    var r := Step(t, line, sentId, time);
    if |words| == 0 {
    } else if NormalizedText(line) == "close all" {
      CloseAllWords();
      assert r.outputs == CloseAll(t);
      assert FormatHintReply !in CloseAll(t) by {
        if t != [] {
          var c := CloseNotices(t);
          assert CloseAll(t) == c + [CloseAll(t)[|c|]];
          assert forall i :: 0 <= i < |c| ==> c[i].Group?;
        }
      }
    } else if words[0] == "close" && |words| >= 2 {
    } else if words[0] == "buy" || words[0] == "sell" {
      assert r == Open(t, words, sentId, time);
    } else {
    }
  }

  /** The interpreter does not see case: a line, its lower-cased and its
      upper-cased form do the same thing. */
  lemma StepIgnoresCase(t: Table, line: string, sentId: int, time: string)
    ensures Step(t, Lower(line), sentId, time) == Step(t, line, sentId, time)
    ensures Step(t, Upper(line), sentId, time) == Step(t, line, sentId, time)
  {
    LowerIdempotent(line);
    LowerAfterUpper(line);
    assert NormalizedText(Lower(line)) == NormalizedText(line);
    assert NormalizedText(Upper(line)) == NormalizedText(line);
  }

  /** The table kept for the life of the process: one entry per symbol, and
      every symbol is a single upper-case word. */
  predicate WellFormed(t: Table) {
    && DistinctKeys(t)
    && forall k :: k in Keys(t) ==> IsWord(k) && IsUpperCase(k)
  }

  /** The symbol of a buy/sell command is an upper-case word. */
  lemma SymbolIsUpperWord(words: seq<string>)
    requires forall i :: 0 <= i < |words| ==> IsWord(words[i])
    requires FindSymbol(words).Some?
    ensures IsWord(FindSymbol(words).value)
    ensures IsUpperCase(FindSymbol(words).value)
  {
    var i :| FirstSymbolAt(words, i) && FindSymbol(words).value == Upper(words[i]);
    CaseKeepsSpaces(words[i]);
    UpperAfterLower(words[i]);
  }

  lemma StepPreservesWellFormed(t: Table, line: string, sentId: int, time: string)
    requires WellFormed(t)
    ensures WellFormed(Step(t, line, sentId, time).table)
  {
    var words := Words(line);
    var r := Step(t, line, sentId, time);
    if r.table != t {
      if NormalizedText(line) == "close all" {
        CloseAllWords();
      }
      assert |words| > 0 && (words[0] == "buy" || words[0] == "sell");
      var symbol := FindSymbol(words).value;
      SplitSpec(NormalizedText(line));
      SymbolIsUpperWord(words);
      PutKeepsDistinct(t, symbol, Position(sentId, "long" in words || "spot" in words));
    }
  }

}

=== FILE: examples.dfy ===
/** Concrete lines and what the interpreter does with them.

    Several lemmas take their concrete line or word list as a parameter
    fixed by a `requires` rather than writing the literal in the `ensures`:
    a string literal in a proof goal makes the verifier unfold `Lower`,
    `Strip` and `Split` on it character by character, which is far more
    costly than reasoning about a variable known to equal it. */
module Examples {
  import opened Options
  import opened Text
  import opened Positions
  import opened Extract
  import opened Interpreter
  import opened Behaviour

  /** A decimal price passes the price test. */
  lemma DecimalIsPrice()
    ensures IsPriceToken("45000.5")
  {
    assert FirstDot("45000.5") == 5;
    assert RemoveFirstDot("45000.5") == "450005";
  }

  /** A leading or trailing dot is accepted too. */
  lemma BareDotEndsArePrices()
    ensures IsPriceToken(".5") && IsPriceToken("5.")
  {
    assert FirstDot(".5") == 0;
    assert RemoveFirstDot(".5") == "5";
    assert FirstDot("5.") == 1;
    assert RemoveFirstDot("5.") == "5";
  }

  /** A lone dot and a second dot are rejected. */
  lemma DotsAreNotPrices()
    ensures !IsPriceToken(".")
    ensures !IsPriceToken("1.2.3")
  {
    assert FirstDot(".") == 0;
    assert RemoveFirstDot(".") == "";
    assert FirstDot("1.2.3") == 1;
    assert RemoveFirstDot("1.2.3") == "12.3";
    assert !IsDigit("12.3"[2]);
  }

  /** The price is the last number-like word. */
  // The literal is a parameter for the reason given at the top of the module.
  lemma PriceScan(words: seq<string>)
    requires words == ["buy", "btc", "at", "45000.5"]
    ensures FindPrice(words) == Some("45000.5")
  {
    DecimalIsPrice();
    assert LastPriceAt(words, 3);
    FindPriceIsLast(words, 3);
  }

  /** A command without a number-like word has no price. */
  // The literal is a parameter for the reason given at the top of the module.
  lemma NoPriceScan(words: seq<string>)
    requires words == ["sell", "sol"]
    ensures FindPrice(words) == None
  {
    assert RemoveFirstDot(words[0]) == "sell" && !IsDigit("sell"[0]);
    assert RemoveFirstDot(words[1]) == "sol" && !IsDigit("sol"[0]);
  }

  /** The symbol skips the stop words, wherever they stand. */
  lemma SymbolScan()
    ensures FindSymbol(["buy", "long", "sol", "100"]) == Some("SOL")
    ensures FindSymbol(["sell", "spot", "long"]) == None
  {
    assert FirstSymbolAt(["buy", "long", "sol", "100"], 2);
    FindSymbolIsFirst(["buy", "long", "sol", "100"], 2);
    assert Upper("sol") == "SOL";
  }

  lemma BuySolLower()
    ensures Lower("BUY SOL 100") == "buy sol 100"
    ensures Lower("buy sol 100") == "buy sol 100"
  {
  }

  lemma BuySolStrip()
    ensures Strip("buy sol 100") == "buy sol 100"
  {
    StripUnchanged("buy sol 100");
  }

  lemma BuySolSplit()
    ensures Split("buy sol 100") == ["buy", "sol", "100"]
  {
    assert JoinSpaces(["buy", "sol", "100"]) == "buy sol 100";
    SplitJoin(["buy", "sol", "100"]);
  }

  lemma BuySolWords()
    ensures Lower("BUY SOL 100") == "buy sol 100"
    ensures NormalizedText("buy sol 100") == "buy sol 100"
    ensures Words("buy sol 100") == ["buy", "sol", "100"]
  {
    BuySolLower();
    BuySolStrip();
    BuySolSplit();
  }

  lemma BuySolScans()
    ensures FindSymbol(["buy", "sol", "100"]) == Some("SOL")
    ensures FindPrice(["buy", "sol", "100"]) == Some("100")
  {
    var words := ["buy", "sol", "100"];
    assert FirstSymbolAt(words, 1);
    FindSymbolIsFirst(words, 1);
    assert Upper("sol") == "SOL";
    assert RemoveFirstDot("100") == "100";
    assert LastPriceAt(words, 2);
    FindPriceIsLast(words, 2);
  }

  /** For the words of `buy sol 100` the bot sends a green buy notice for
      `SOL` at `100` and maps `SOL` to the sent message as a short-term
      position. */
  // The literal is a parameter for the reason given at the top of the module.
  lemma BuySolOpen(t: Table, words: seq<string>, sentId: int, time: string)
    requires words == ["buy", "sol", "100"]
    ensures Open(t, words, sentId, time)
            == StepResult(Put(t, "SOL", Position(sentId, false)),
                          [Group(TradeSignal(Green, "SOL", Buy, Some("100"), time, false), None)])
  {
    BuySolScans();
    assert "long" !in words && "spot" !in words;
  }

  /** The whole step for the line `buy sol 100`: one green buy notice for
      `SOL` at `100`, and `SOL` recorded short-term against the sent
      message. */
  // `line` is a parameter for the reason given at the top of the module.
  lemma BuySolStep(t: Table, line: string, sentId: int, time: string)
    requires line == "buy sol 100"
    ensures Step(t, line, sentId, time)
            == StepResult(Put(t, "SOL", Position(sentId, false)),
                          [Group(TradeSignal(Green, "SOL", Buy, Some("100"), time, false), None)])
  {
    BuySolWords();
    StepIsOpen(t, line, sentId, time);
    BuySolOpen(t, Words(line), sentId, time);
  }

  /** `BUY SOL 100` does exactly what `buy sol 100` does. */
  // The literal is a parameter for the reason given at the top of the module.
  lemma ShoutedBuySol(t: Table, shouted: string, line: string, sentId: int, time: string)
    requires shouted == "BUY SOL 100" && line == "buy sol 100"
    ensures Step(t, shouted, sentId, time) == Step(t, line, sentId, time)
  {
    BuySolLower();
    StepIgnoresCase(t, shouted, sentId, time);
  }

  lemma PaddedLower()
    ensures Lower("  CLOSE ALL ") == "  close all "
  {
  }

  lemma PaddedStrip()
    ensures Strip("  close all ") == "close all"
  {
    assert LeadingSpaces("  close all ") == 2;
    assert "  close all "[2..] == "close all ";
    assert TrailingStart("close all ") == 9;
  }

  lemma CloseAllPadded()
    ensures NormalizedText("  CLOSE ALL ") == "close all"
  {
    PaddedLower();
    PaddedStrip();
  }

  lemma DoubleSpacedLower()
    ensures Lower("close  all") == "close  all"
  {
  }

  lemma DoubleSpacedStrip()
    ensures Strip("close  all") == "close  all"
  {
    StripUnchanged("close  all");
  }

  lemma DoubleSpacedSplit()
    ensures Split("close  all") == ["close", "all"]
  {
    assert "close  all" == "close" + "  " + "all";
    SplitSpacedPair("close", "  ", "all");
  }

  lemma DoubleSpacedWords()
    ensures NormalizedText("close  all") == "close  all"
    ensures Words("close  all") == ["close", "all"]
  {
    DoubleSpacedLower();
    DoubleSpacedStrip();
    DoubleSpacedSplit();
  }

  /** Close-all is recognised on the whole stripped text, so surrounding
      whitespace and case do not matter (`CloseAllPadded`) but a doubled
      inner space does: `close  all` is a close-single command for the
      symbol `ALL`. */
  // `line` is a parameter for the reason given at the top of the module.
  lemma DoubleSpacedCloseAll(t: Table, line: string, sentId: int, time: string)
    requires line == "close  all"
    requires Lookup(t, "ALL").None?
    ensures Step(t, line, sentId, time) == StepResult(t, [Group(NoPositionFound("ALL"), None)])
  {
    DoubleSpacedWords();
    UpperAll();
    CloseSingle(t, line, sentId, time);
  }

  /** `close ALL`, with a single space and in any case, is the close-all
      command, so it never reaches the close-single branch for `ALL`. */
  // `line` is a parameter for the reason given at the top of the module.
  lemma CloseSymbolAllIsCloseAll(t: Table, line: string, sentId: int, time: string)
    requires line == "close ALL"
    ensures Step(t, line, sentId, time) == StepResult(t, CloseAll(t))
  {
    assert Lower(line) == "close all";
    StripUnchanged("close all");
  }

  /** A wider gap does reach it: `close  all` closes a short-term `ALL`
      position on its own, threaded to its anchor message. */
  // `line` is a parameter for the reason given at the top of the module.
  lemma DoubleSpacedClosesAll(t: Table, line: string, id: int, sentId: int, time: string)
    requires line == "close  all"
    requires Lookup(t, "ALL") == Some(Position(id, false))
    ensures Step(t, line, sentId, time) == StepResult(t, [Group(CloseNotice("ALL"), Some(id))])
  {
    DoubleSpacedWords();
    UpperAll();
    CloseSingle(t, line, sentId, time);
  }

  lemma UpperAll()
    ensures Upper("all") == "ALL"
  {
  }

}

=== FILE: extract.dfy ===
/** The two token scans of a `buy`/`sell` command: the symbol is the first
    word that is not a stop word, upper-cased; the price is the last word
    that is a decimal number once its first `.` is deleted. */
module Extract {
  import opened Options
  import opened Text

  /** The words skipped when looking for the symbol. */
  predicate IsStopword(w: string) {
    w == "buy" || w == "sell" || w == "long" || w == "spot"
  }

  /** Index `i` holds the first word that is not a stop word. */
  predicate FirstSymbolAt(words: seq<string>, i: int) {
    && 0 <= i < |words|
    && !IsStopword(words[i])
    && forall j :: 0 <= j < i ==> IsStopword(words[j])
  }

  /** Scanning `words[n..]` from the left, the index of the first word that
      `ok` accepts. */
  function FirstIndexWhere(words: seq<string>, n: nat, ok: string -> bool): (r: Option<nat>)
    requires n <= |words|
    ensures r.None? <==> forall i :: n <= i < |words| ==> !ok(words[i])
    ensures r.Some? ==> n <= r.value < |words| && ok(words[r.value])
                        && forall j :: n <= j < r.value ==> !ok(words[j])
    decreases |words| - n
  {
    if n == |words| then None
    else if ok(words[n]) then Some(n)
    else FirstIndexWhere(words, n + 1, ok)
  }

  /** `next(w for w in words if w not in stop words).upper()`; `None` stands
      for the `StopIteration` the Python generator raises. */
  function FindSymbol(words: seq<string>): (r: Option<string>)
    ensures r.None? <==> forall i :: 0 <= i < |words| ==> IsStopword(words[i])
    ensures r.Some? ==> exists i :: FirstSymbolAt(words, i) && r.value == Upper(words[i])
  {
    match FirstIndexWhere(words, 0, w => !IsStopword(w))
    case None => None
    case Some(i) =>
      assert FirstSymbolAt(words, i);
      Some(Upper(words[i]))
  }

  /** The scan finds exactly the first non-stop word: together with the
      contract of `FindSymbol` this is an if-and-only-if. */
  lemma FindSymbolIsFirst(words: seq<string>, i: int)
    requires FirstSymbolAt(words, i)
    ensures FindSymbol(words) == Some(Upper(words[i]))
  {
    var k := FirstIndexWhere(words, 0, w => !IsStopword(w));
    assert k.Some?;
    assert !(k.value < i) && !(i < k.value);
  }

  /** The symbol found is upper case. */
  lemma {:induction false} FindSymbolUpperCase(words: seq<string>)
    ensures FindSymbol(words).Some? ==> IsUpperCase(FindSymbol(words).value)
  {
    if FindSymbol(words).Some? {
      var i :| FirstSymbolAt(words, i) && FindSymbol(words).value == Upper(words[i]);
      UpperAfterLower(words[i]);
    }
  }

  // ---------------------------------------------------------------------------
  // price
  // ---------------------------------------------------------------------------

  /** Index of the first `.` of `w`, or `|w|` when there is none. */
  function FirstDot(w: string): (d: nat)
    ensures d <= |w|
    ensures forall k :: 0 <= k < d ==> w[k] != '.'
    ensures d < |w| ==> w[d] == '.'
  {
    if w == [] || w[0] == '.' then 0 else 1 + FirstDot(w[1..])
  }

  /** `w.replace('.', '', 1)`: `w` without its first `.`. */
  function RemoveFirstDot(w: string): string {
    var d := FirstDot(w);
    if d < |w| then w[..d] + w[d + 1..] else w
  }

  /** `w.replace('.', '', 1).isdigit()` */
  predicate IsPriceToken(w: string) {
    IsDigits(RemoveFirstDot(w))
  }

  /** The shape of a number the price test accepts: digits and dots only,
      at most one dot, and at least one digit. */
  predicate PriceShape(w: string) {
    && (forall i :: 0 <= i < |w| ==> IsDigit(w[i]) || w[i] == '.')
    && (forall i, j :: 0 <= i < j < |w| ==> !(w[i] == '.' && w[j] == '.'))
    && (exists i :: 0 <= i < |w| && IsDigit(w[i]))
  }

  /** The price test accepts exactly the words of `PriceShape`: so `45000.5`,
      `.5` and `5.` qualify, while `.`, `1.2.3` and the empty word do not. */
  lemma PriceTokenShape(w: string)
    ensures IsPriceToken(w) <==> PriceShape(w)
  {
    var r := RemoveFirstDot(w);
    var d := FirstDot(w);
    if d == |w| {
      assert r == w;
      if PriceShape(w) {
        var i :| 0 <= i < |w| && IsDigit(w[i]);
      }
    } else {
      assert |r| == |w| - 1;
      assert forall k :: 0 <= k < d ==> r[k] == w[k];
      assert forall k :: d < k < |w| ==> r[k - 1] == w[k];
      if IsPriceToken(w) {
        forall i, j | 0 <= i < j < |w| ensures !(w[i] == '.' && w[j] == '.') {
        }
        if 0 < d {
          assert IsDigit(w[0]);
        } else {
          assert IsDigit(r[0]);
          assert IsDigit(w[1]);
        }
      }
      if PriceShape(w) {
        var e :| 0 <= e < |w| && IsDigit(w[e]);
        assert |r| > 0;
        forall k | 0 <= k < |r| ensures IsDigit(r[k]) {
          if k >= d {
            assert w[k + 1] != '.';
          }
        }
      }
    }
  }

  /** Index `i` holds the last word that passes the price test. */
  predicate LastPriceAt(words: seq<string>, i: int) {
    && 0 <= i < |words|
    && IsPriceToken(words[i])
    && forall j :: i < j < |words| ==> !IsPriceToken(words[j])
  }

  /** Scanning `words[..n]` from the right, the index of the first word
      that `ok` accepts. */
  function LastIndexWhere(words: seq<string>, n: nat, ok: string -> bool): (r: Option<nat>)
    requires n <= |words|
    ensures r.None? <==> forall i :: 0 <= i < n ==> !ok(words[i])
    ensures r.Some? ==> r.value < n && ok(words[r.value])
                        && forall j :: r.value < j < n ==> !ok(words[j])
  {
    if n == 0 then None
    else if ok(words[n - 1]) then Some(n - 1)
    else LastIndexWhere(words, n - 1, ok)
  }

  /** `next((w for w in reversed(words) if <price test>), None)` */
  function FindPrice(words: seq<string>): (r: Option<string>)
    ensures r.None? <==> forall i :: 0 <= i < |words| ==> !IsPriceToken(words[i])
    ensures r.Some? ==> exists i :: LastPriceAt(words, i) && r.value == words[i]
  {
    match LastIndexWhere(words, |words|, IsPriceToken)
    case None => None
    case Some(i) =>
      assert LastPriceAt(words, i);
      Some(words[i])
  }

  /** The scan finds exactly the last qualifying word: together with the
      contract of `FindPrice` this is an if-and-only-if. */
  lemma FindPriceIsLast(words: seq<string>, i: int)
    requires LastPriceAt(words, i)
    ensures FindPrice(words) == Some(words[i])
  {
    var k := LastIndexWhere(words, |words|, IsPriceToken);
    assert k.Some?;
    assert !(k.value < i) && !(i < k.value);
  }

}

=== FILE: interpreter.dfy ===
/** The chat command interpreter, `handle_message` in trade_bot.py, as one
    pure step: a position table and an inbound line go in; the updated table
    and the messages the bot sends come out.

    Sending a message is an `Output` record. The id the messaging platform
    assigns to the buy/sell notice (`sent.message_id`) and the formatted
    UTC+8 timestamp are parameters of the step. */
module Interpreter {
  import opened Options
  import opened Text
  import opened Positions
  import opened Extract

  datatype Action = Buy | Sell

  /** The marker that opens a trade notice: green for a buy, red for a sell. */
  datatype Emoji = Green | Red

  /** The kinds of message the bot posts to the group, with their fields. */
  datatype Notice =
    | NoActivePositions                  // close-all on an empty table
    | CloseNotice(symbol: string)        // "close <symbol>USDT", sent as a reply
    | AllShortMidClosed                  // close-all summary after at least one close
    | OnlyLongTermOpen                   // close-all summary when nothing was closed
    | LongTermNotClosed(symbol: string)  // close refused for a long-term position
    | NoPositionFound(symbol: string)    // close of a symbol the table does not hold
    | TradeSignal(emoji: Emoji, symbol: string, action: Action,
                  price: Option<string>, time: string, longTerm: bool)

  /** One call of the platform's send primitive. A group message may thread
      as a reply to an earlier message; the usage hint for a malformed
      buy/sell command is posted as a reply to the command, in the chat the
      command came from. */
  datatype Output =
    | Group(notice: Notice, replyTo: Option<int>)
    | FormatHintReply

  datatype StepResult = StepResult(table: Table, outputs: seq<Output>)

  /** `text.lower().strip()` */
  function NormalizedText(line: string): string {
    Strip(Lower(line))
  }

  /** `text.split()` of the normalized text. */
  function Words(line: string): seq<string> {
    Split(NormalizedText(line))
  }

  /** The close notice for one table entry, threaded to its anchor message. */
  function CloseReply(e: Entry): Output {
    Group(CloseNotice(e.symbol), Some(e.pos.msgId))
  }

  /** The per-symbol close notices of close-all: one for every entry that is
      not long-term, in table order. */
  function CloseNotices(t: Table): (out: seq<Output>)
    ensures |out| <= |t|
    ensures forall i :: 0 <= i < |out| ==> out[i].Group? && out[i].notice.CloseNotice?
                                           && out[i].replyTo.Some?
  {
    if t == [] then []
    else (if t[0].pos.isLongTerm then [] else [CloseReply(t[0])]) + CloseNotices(t[1..])
  }

  /** The `close all` branch. */
  function CloseAll(t: Table): seq<Output> {
    if t == [] then [Group(NoActivePositions, None)]
    else
      var closes := CloseNotices(t);
      closes + [Group(if closes != [] then AllShortMidClosed else OnlyLongTermOpen, None)]
  }

  /** The `close <symbol>` branch, for an already upper-cased symbol. */
  function CloseOne(t: Table, symbol: string): Output {
    match Lookup(t, symbol)
    case None => Group(NoPositionFound(symbol), None)
    case Some(p) =>
      if p.isLongTerm then Group(LongTermNotClosed(symbol), None)
      else Group(CloseNotice(symbol), Some(p.msgId))
  }

  /** The `buy`/`sell` branch. */
  function Open(t: Table, words: seq<string>, sentId: int, time: string): StepResult
    requires |words| > 0 && (words[0] == "buy" || words[0] == "sell")
  {
    var action := if words[0] == "buy" then Buy else Sell;
    var longTerm := "long" in words || "spot" in words;
    match FindSymbol(words)
    case None => StepResult(t, [FormatHintReply])
    case Some(symbol) =>
      var price := FindPrice(words);
      var emoji := if action == Buy then Green else Red;
      var notice := TradeSignal(emoji, symbol, action, price, time, longTerm);
      StepResult(Put(t, symbol, Position(sentId, longTerm)), [Group(notice, None)])
  }

  /** One inbound line. The branches are tried in the order of the source:
      empty line, the exact text `close all`, `close <symbol>`, `buy`/`sell`,
      and anything else is ignored. */
  function Step(t: Table, line: string, sentId: int, time: string): StepResult {
    Dispatch(t, NormalizedText(line), sentId, time)
  }

  /** The branches of `Step`, on the lower-cased and stripped text. Closing
      never removes an entry, so the table only grows; it changes only when
      a trade notice is sent. */
  function Dispatch(t: Table, text: string, sentId: int, time: string): (r: StepResult)
    ensures Keys(t) <= Keys(r.table)
    ensures |r.table| <= |t| + 1
    ensures r.table != t ==> |r.outputs| == 1 && r.outputs[0].Group?
                             && r.outputs[0].notice.TradeSignal?
  {
    var words := Split(text);
    if |words| == 0 then StepResult(t, [])
    else if text == "close all" then StepResult(t, CloseAll(t))
    else if words[0] == "close" && |words| >= 2 then StepResult(t, [CloseOne(t, Upper(words[1]))])
    else if words[0] == "buy" || words[0] == "sell" then Open(t, words, sentId, time)
    else StepResult(t, [])
  }

  /** Close notices of a concatenation are the concatenation of the close
      notices: the notices come out in table order. */
  lemma {:induction false} CloseNoticesAppend(t1: Table, t2: Table)
    ensures CloseNotices(t1 + t2) == CloseNotices(t1) + CloseNotices(t2)
    decreases |t1|
  {
    if t1 == [] {
      assert t1 + t2 == t2;
    } else {
      assert (t1 + t2)[0] == t1[0];
      assert (t1 + t2)[1..] == t1[1..] + t2;
      CloseNoticesAppend(t1[1..], t2);
    }
  }

  /** Close-all written the way the source runs it: a loop over the table
      in order with a `closed_any` flag, then the summary the flag selects. */
  method CloseAllLoop(t: Table) returns (out: seq<Output>)
    ensures out == CloseAll(t)
  {
    if |t| == 0 {
      return [Group(NoActivePositions, None)];
    }
    var closedAny := false;
    out := [];
    var i := 0;
    while i < |t|
      invariant 0 <= i <= |t|
      invariant out == CloseNotices(t[..i])
      invariant closedAny <==> out != []
    {
      CloseNoticesAppend(t[..i], [t[i]]);
      assert t[..i + 1] == t[..i] + [t[i]];
      if !t[i].pos.isLongTerm {
        out := out + [Group(CloseNotice(t[i].symbol), Some(t[i].pos.msgId))];
        closedAny := true;
      }
      i := i + 1;
    }
    assert t[..|t|] == t;
    if closedAny {
      out := out + [Group(AllShortMidClosed, None)];
    } else {
      out := out + [Group(OnlyLongTermOpen, None)];
    }
  }

}

=== FILE: options.dfy ===
/** The optional value used wherever the bot's Python code yields `None`. */
module Options {

  datatype Option<+T> = None | Some(value: T)

}

=== FILE: positions.dfy ===
/** The bot's in-memory position table, `last_trade_messages`: a dictionary
    from upper-cased symbol to the id of the message that announced the
    position and whether the position is long-term. A Python dictionary
    iterates in insertion order and an assignment to an existing key keeps
    that key's place, so the table is modelled as an association list with
    exactly that update rule. */
module Positions {
  import opened Options

  datatype Position = Position(msgId: int, isLongTerm: bool)

  datatype Entry = Entry(symbol: string, pos: Position)

  type Table = seq<Entry>

  /** Every symbol occurs at most once, as in a dictionary. */
  predicate DistinctKeys(t: Table) {
    forall i, j :: 0 <= i < j < |t| ==> t[i].symbol != t[j].symbol
  }

  function Keys(t: Table): (ks: set<string>)
    ensures forall k :: k in ks <==> exists i :: 0 <= i < |t| && t[i].symbol == k
  {
    if t == [] then {} else {t[0].symbol} + Keys(t[1..])
  }

  /** `table.get(k)`: the position stored under `k`, if any. */
  function Lookup(t: Table, k: string): (r: Option<Position>)
    ensures r.None? <==> k !in Keys(t)
    ensures r.Some? ==> exists i :: 0 <= i < |t| && t[i] == Entry(k, r.value)
  {
    if t == [] then None
    else if t[0].symbol == k then Some(t[0].pos)
    else Lookup(t[1..], k)
  }

  /** `table[k] = p`: overwrites the entry for `k` in place, or appends a
      new entry at the end when `k` is absent. */
  function Put(t: Table, k: string, p: Position): (r: Table)
    ensures Keys(r) == Keys(t) + {k}
    ensures |r| == if k in Keys(t) then |t| else |t| + 1
    ensures forall i :: 0 <= i < |t| ==> r[i].symbol == t[i].symbol
    ensures Lookup(r, k) == Some(p)
  {
    if t == [] then [Entry(k, p)]
    else if t[0].symbol == k then [Entry(k, p)] + t[1..]
    else [t[0]] + Put(t[1..], k, p)
  }

  /** Assignment to `k` leaves every other key's entry as it was. */
  lemma {:induction false} PutKeepsOthers(t: Table, k: string, p: Position, k': string)
    requires k' != k
    ensures Lookup(Put(t, k, p), k') == Lookup(t, k')
  {
    if t != [] && t[0].symbol != k {
      PutKeepsOthers(t[1..], k, p, k');
    }
  }

  /** Assignment never creates a second entry for a key. */
  lemma {:induction false} PutKeepsDistinct(t: Table, k: string, p: Position)
    requires DistinctKeys(t)
    ensures DistinctKeys(Put(t, k, p))
  {
    if t == [] {
    } else if t[0].symbol == k {
      var r := Put(t, k, p);
      assert forall i :: 0 <= i < |r| ==> r[i].symbol == t[i].symbol;
    } else {
      PutKeepsDistinct(t[1..], k, p);
      HeadNotInRest(t);
      DistinctCons(t[0], Put(t[1..], k, p));
    }
  }

  lemma HeadNotInRest(t: Table)
    requires DistinctKeys(t) && t != []
    ensures t[0].symbol !in Keys(t[1..])
  {
  }

  lemma DistinctCons(e: Entry, rest: Table)
    requires DistinctKeys(rest) && e.symbol !in Keys(rest)
    ensures DistinctKeys([e] + rest)
  {
    var r := [e] + rest;
    forall i, j | 0 <= i < j < |r| ensures r[i].symbol != r[j].symbol {
      assert r[j] == rest[j - 1];
      if i == 0 {
        assert rest[j - 1].symbol in Keys(rest);
      } else {
        assert r[i] == rest[i - 1];
      }
    }
  }

  /** The dictionary the table stands for; the first entry for a key wins,
      which is also what `Lookup` returns. */
  function ToMap(t: Table): map<string, Position> {
    if t == [] then map[] else ToMap(t[1..])[t[0].symbol := t[0].pos]
  }

  /** `Lookup` reads the table exactly as the dictionary `ToMap` does. */
  lemma {:induction false} LookupAgreesWithMap(t: Table, k: string)
    ensures k in ToMap(t) <==> Lookup(t, k).Some?
    ensures k in ToMap(t) ==> Lookup(t, k) == Some(ToMap(t)[k])
  {
    if t != [] {
      LookupAgreesWithMap(t[1..], k);
    }
  }

  /** `Put` is dictionary assignment. */
  lemma PutIsMapUpdate(t: Table, k: string, p: Position)
    ensures ToMap(Put(t, k, p)) == ToMap(t)[k := p]
  {
    var m := ToMap(Put(t, k, p));
    var m' := ToMap(t)[k := p];
    forall k' ensures (k' in m <==> k' in m') && (k' in m ==> m[k'] == m'[k']) {
      LookupAgreesWithMap(Put(t, k, p), k');
      LookupAgreesWithMap(t, k');
      if k' != k {
        PutKeepsOthers(t, k, p, k');
      }
    }
  }

  /** In a table without duplicate keys, the entry at index `i` is what a
      lookup of its symbol finds. */
  lemma {:induction false} LookupAtIndex(t: Table, i: int)
    requires DistinctKeys(t)
    requires 0 <= i < |t|
    ensures Lookup(t, t[i].symbol) == Some(t[i].pos)
  {
    if i > 0 {
      assert t[0].symbol != t[i].symbol;
      LookupAtIndex(t[1..], i - 1);
    }
  }

  /** Without duplicate keys, a lookup succeeds exactly for the stored entries. */
  lemma LookupFindsEntry(t: Table, k: string, p: Position)
    requires DistinctKeys(t)
    ensures Lookup(t, k) == Some(p) <==> Entry(k, p) in t
  {
    if Entry(k, p) in t {
      var i :| 0 <= i < |t| && t[i] == Entry(k, p);
      LookupAtIndex(t, i);
    }
  }

}

=== FILE: session.dfy ===
/** The life of one bot process: the table starts empty and inbound lines
    are handled one after another against it. */
module Session {
  import opened Options
  import opened Text
  import opened Positions
  import opened Extract
  import opened Interpreter
  import opened Behaviour

  /** One inbound chat line, with the id the platform assigns to a notice
      sent for it and the rendered timestamp. */
  datatype Inbound = Inbound(line: string, sentId: int, time: string)

  /** Lines handled in order against the shared table; the messages sent
      are collected in order. The table stays well formed, and no symbol
      ever leaves it. */
  function Run(t: Table, inbox: seq<Inbound>): (r: StepResult)
    ensures WellFormed(t) ==> WellFormed(r.table)
    ensures Keys(t) <= Keys(r.table)
    ensures |r.table| <= |t| + |inbox|
    decreases |inbox|
  {
    if inbox == [] then StepResult(t, [])
    else
      var m := inbox[0];
      var first := Step(t, m.line, m.sentId, m.time);
      assert WellFormed(t) ==> WellFormed(first.table) by {
        if WellFormed(t) {
          StepPreservesWellFormed(t, m.line, m.sentId, m.time);
        }
      }
      var rest := Run(first.table, inbox[1..]);
      StepResult(rest.table, first.outputs + rest.outputs)
  }

  lemma LowerCloseLine(symbol: string)
    ensures Lower("close " + symbol) == "close " + Lower(symbol)
  {
    var a := "close ";
    assert Lower(a) == a;
    assert forall i :: 0 <= i < |a| + |symbol| ==> Lower(a + symbol)[i] == (a + Lower(symbol))[i];
  }

  /** `close <x>` for a word `x` is already stripped and splits into the
      two words `close` and `x`. */
  lemma CloseLineSplits(x: string)
    requires IsWord(x)
    ensures Strip("close " + x) == "close " + x
    ensures Split("close " + x) == ["close", x]
  {
    var text := "close " + x;
    assert text[|text| - 1] == x[|x| - 1];
    StripUnchanged(text);
    assert JoinSpaces(["close", x]) == text;
    SplitJoin(["close", x]);
  }

  /** The lower-cased form of a symbol other than `ALL` is not `all`. */
  lemma LowerNotAll(symbol: string)
    requires IsUpperCase(symbol) && symbol != "ALL"
    ensures "close " + Lower(symbol) != "close all"
  {
    UpperAfterLower(symbol);
    var x := Lower(symbol);
    assert Upper("all") == "ALL";
    assert x != "all";
    assert ("close " + x)[6..] == x;
    assert "close all"[6..] == "all";
  }

  /** The line `close <symbol>` for a symbol that is an upper-case word other
      than `ALL` is a close-single command for exactly that symbol. */
  lemma CloseLineWords(symbol: string)
    requires IsWord(symbol) && IsUpperCase(symbol)
    requires symbol != "ALL"
    ensures var line := "close " + symbol;
            && NormalizedText(line) != "close all"
            && Words(line) == ["close", Lower(symbol)]
            && Upper(Lower(symbol)) == symbol
  {
    LowerCloseLine(symbol);
    CaseKeepsSpaces(symbol);
    CloseLineSplits(Lower(symbol));
    UpperAfterLower(symbol);
    LowerNotAll(symbol);
  }

  /** The anchor round trip: after a buy/sell notice for `symbol` has been
      sent as message `sentId`, the line `close <symbol>` threads a close
      notice as a reply to that very message, or, for a long-term position,
      is refused; in both cases the table is left as it was. */
  lemma OpenThenClose(t: Table, open: Inbound, closeId: int, closeTime: string)
    requires var w := Words(open.line);
             |w| > 0 && (w[0] == "buy" || w[0] == "sell") && FindSymbol(w).Some?
    requires FindSymbol(Words(open.line)).value != "ALL"
    ensures var w := Words(open.line);
            var symbol := FindSymbol(w).value;
            var longTerm := "long" in w || "spot" in w;
            var t' := Step(t, open.line, open.sentId, open.time).table;
            var r := Step(t', "close " + symbol, closeId, closeTime);
            && r.table == t'
            && r.outputs == [if longTerm then Group(LongTermNotClosed(symbol), None)
                             else Group(CloseNotice(symbol), Some(open.sentId))]
  {
    var w := Words(open.line);
    var symbol := FindSymbol(w).value;
    var t' := Step(t, open.line, open.sentId, open.time).table;
    SplitSpec(NormalizedText(open.line));
    SymbolIsUpperWord(w);
    OpenTrade(t, open.line, open.sentId, open.time);
    CloseLineWords(symbol);
    CloseSingle(t', "close " + symbol, closeId, closeTime);
  }

}

=== FILE: text.dfy ===
/** The string primitives the command interpreter applies to an inbound line:
    `lower()`, `upper()`, `strip()`, `split()` and `isdigit()`, restricted to
    ASCII. Characters outside ASCII are treated as ordinary non-space,
    non-letter, non-digit characters. */
module Text {

  /** `str.isspace()` on ASCII: tab, line feed, vertical tab, form feed,
      carriage return, the separators 0x1C..0x1F, and space. */
  predicate IsSpace(c: char) {
    (9 <= c as int <= 13) || (28 <= c as int <= 32)
  }

  predicate IsDigit(c: char) { '0' <= c <= '9' }

  predicate IsUpperLetter(c: char) { 'A' <= c <= 'Z' }

  predicate IsLowerLetter(c: char) { 'a' <= c <= 'z' }

  predicate AllSpace(s: string) {
    forall i :: 0 <= i < |s| ==> IsSpace(s[i])
  }

  predicate NoSpace(s: string) {
    forall i :: 0 <= i < |s| ==> !IsSpace(s[i])
  }

  /** A token produced by `split()`: non-empty and free of whitespace. */
  predicate IsWord(w: string) {
    |w| > 0 && NoSpace(w)
  }

  /** `str.isdigit()` on ASCII: non-empty and made of decimal digits only. */
  predicate IsDigits(s: string) {
    |s| > 0 && forall i :: 0 <= i < |s| ==> IsDigit(s[i])
  }

  function LowerChar(c: char): char {
    if IsUpperLetter(c) then (c as int + 32) as char else c
  }

  function UpperChar(c: char): char {
    if IsLowerLetter(c) then (c as int - 32) as char else c
  }

  /** `str.lower()` */
  function Lower(s: string): string {
    seq(|s|, i requires 0 <= i < |s| => LowerChar(s[i]))
  }

  /** `str.upper()` */
  function Upper(s: string): string {
    seq(|s|, i requires 0 <= i < |s| => UpperChar(s[i]))
  }

  /** No lower-case letter is left after `upper()`. */
  predicate IsUpperCase(s: string) {
    forall i :: 0 <= i < |s| ==> !IsLowerLetter(s[i])
  }

  lemma LowerIdempotent(s: string)
    ensures Lower(Lower(s)) == Lower(s)
    ensures forall i :: 0 <= i < |s| ==> !IsUpperLetter(Lower(s)[i])
  {
  }

  /** Lower-casing first never changes what `upper()` produces, and an
      upper-cased string is a fixed point of `upper()`. */
  lemma UpperAfterLower(s: string)
    ensures Upper(Lower(s)) == Upper(s)
    ensures IsUpperCase(Upper(s))
    ensures IsUpperCase(s) ==> Upper(s) == s
  {
  }

  /** Upper-casing first never changes what `lower()` produces. */
  lemma LowerAfterUpper(s: string)
    ensures Lower(Upper(s)) == Lower(s)
  {
  }

  /** Case changes keep whitespace exactly where it was. */
  lemma CaseKeepsSpaces(s: string)
    ensures |Lower(s)| == |s| && |Upper(s)| == |s|
    ensures forall i :: 0 <= i < |s| ==> (IsSpace(Lower(s)[i]) <==> IsSpace(s[i]))
    ensures forall i :: 0 <= i < |s| ==> (IsSpace(Upper(s)[i]) <==> IsSpace(s[i]))
  {
  }

  // ---------------------------------------------------------------------------
  // strip()
  // ---------------------------------------------------------------------------

  /** Number of whitespace characters that start `s`. */
  function LeadingSpaces(s: string): (n: nat)
    ensures n <= |s|
    ensures forall k :: 0 <= k < n ==> IsSpace(s[k])
    ensures n == |s| || !IsSpace(s[n])
  {
    if s != [] && IsSpace(s[0]) then 1 + LeadingSpaces(s[1..]) else 0
  }

  /** Index at which the whitespace that ends `s` begins. */
  function TrailingStart(s: string): (n: nat)
    ensures n <= |s|
    ensures forall k :: n <= k < |s| ==> IsSpace(s[k])
    ensures n == 0 || !IsSpace(s[n - 1])
  {
    if s != [] && IsSpace(s[|s| - 1]) then TrailingStart(s[..|s| - 1]) else |s|
  }

  /** `r` is `s[i..j]`, and everything of `s` outside that slice is whitespace. */
  predicate SliceWithin(s: string, i: nat, j: nat, r: string) {
    && i <= j <= |s| && r == s[i..j]
    && (forall k :: 0 <= k < i ==> IsSpace(s[k]))
    && (forall k :: j <= k < |s| ==> IsSpace(s[k]))
  }

  /** `str.strip()` */
  function Strip(s: string): string {
    var i := LeadingSpaces(s);
    s[i..i + TrailingStart(s[i..])]
  }

  /** `strip()` returns the slice of `s` left after removing the whitespace
      at both ends: it neither starts nor ends in whitespace, and it is empty
      exactly for an all-whitespace string. */
  lemma StripSpec(s: string)
    ensures exists i: nat, j: nat :: SliceWithin(s, i, j, Strip(s))
    ensures var r := Strip(s); r == [] || (!IsSpace(r[0]) && !IsSpace(r[|r| - 1]))
    ensures Strip(s) == [] <==> AllSpace(s)
  {
    var i := LeadingSpaces(s);
    var j := i + TrailingStart(s[i..]);
    assert Strip(s) == s[i..j];
    assert SliceWithin(s, i, j, Strip(s));
  }

  // ---------------------------------------------------------------------------
  // split()
  // ---------------------------------------------------------------------------

  /** Length of the run of non-space characters that starts `s`. */
  function WordEnd(s: string): (n: nat)
    ensures n <= |s|
    ensures NoSpace(s[..n])
    ensures n == |s| || IsSpace(s[n])
  {
    if s == [] || IsSpace(s[0]) then 0 else 1 + WordEnd(s[1..])
  }

  /** `str.split()` with no separator: the maximal runs of non-space
      characters, left to right. */
  function Split(s: string): seq<string>
    decreases |s|
  {
    if s == [] then []
    else if IsSpace(s[0]) then Split(s[1..])
    else
      var n := WordEnd(s);
      [s[..n]] + Split(s[n..])
  }

  /** Every token of `split()` is a non-empty run without whitespace, and
      there are no tokens exactly when the string is all whitespace. */
  lemma {:induction false} SplitSpec(s: string)
    ensures forall i :: 0 <= i < |Split(s)| ==> IsWord(Split(s)[i])
    ensures Split(s) == [] <==> AllSpace(s)
    decreases |s|
  {
    if s == [] {
    } else if IsSpace(s[0]) {
      SplitSpec(s[1..]);
      assert AllSpace(s) <==> AllSpace(s[1..]);
    } else {
      var n := WordEnd(s);
      SplitSpec(s[n..]);
    }
  }

  /** `" ".join(ws)` */
  function JoinSpaces(ws: seq<string>): string {
    if |ws| == 0 then ""
    else if |ws| == 1 then ws[0]
    else ws[0] + " " + JoinSpaces(ws[1..])
  }

  /** All characters of `s` that are not whitespace, in order. */
  function RemoveSpaces(s: string): (r: string)
    ensures NoSpace(r)
    ensures |r| <= |s|
  {
    if s == [] then []
    else if IsSpace(s[0]) then RemoveSpaces(s[1..])
    else [s[0]] + RemoveSpaces(s[1..])
  }

  function Concat(ws: seq<string>): string {
    if ws == [] then [] else ws[0] + Concat(ws[1..])
  }

  lemma {:induction false} WordEndAppend(a: string, b: string)
    requires WordEnd(a) < |a| || b == [] || IsSpace(b[0])
    ensures WordEnd(a + b) == WordEnd(a)
    decreases |a|
  {
    if a == [] {
    } else if IsSpace(a[0]) {
    } else {
      assert (a + b)[1..] == a[1..] + b;
      WordEndAppend(a[1..], b);
    }
  }

  /** A word followed by nothing or by whitespace splits off as the first token. */
  lemma SplitWordThen(w: string, rest: string)
    requires IsWord(w)
    requires rest == [] || IsSpace(rest[0])
    ensures Split(w + rest) == [w] + Split(rest)
  {
    assert WordEnd(w) == |w| by {
      WordEndAll(w);
    }
    WordEndAppend(w, rest);
    assert (w + rest)[..|w|] == w;
    assert (w + rest)[|w|..] == rest;
  }

  lemma {:induction false} WordEndAll(w: string)
    requires NoSpace(w)
    ensures WordEnd(w) == |w|
    decreases |w|
  {
    if w != [] {
      WordEndAll(w[1..]);
    }
  }

  /** Splitting undoes joining with single spaces. */
  lemma {:induction false} SplitJoin(ws: seq<string>)
    requires forall i :: 0 <= i < |ws| ==> IsWord(ws[i])
    ensures Split(JoinSpaces(ws)) == ws
    decreases |ws|
  {
    if |ws| == 0 {
    } else if |ws| == 1 {
      SplitWordThen(ws[0], []);
      assert ws[0] + [] == ws[0];
    } else {
      var tail := " " + JoinSpaces(ws[1..]);
      assert JoinSpaces(ws) == ws[0] + tail;
      SplitWordThen(ws[0], tail);
      assert tail[1..] == JoinSpaces(ws[1..]);
      assert Split(tail) == Split(JoinSpaces(ws[1..]));
      SplitJoin(ws[1..]);
    }
  }

  lemma {:induction false} RemoveSpacesAppend(a: string, b: string)
    ensures RemoveSpaces(a + b) == RemoveSpaces(a) + RemoveSpaces(b)
    decreases |a|
  {
    if a == [] {
      assert a + b == b;
    } else {
      assert (a + b)[0] == a[0];
      assert (a + b)[1..] == a[1..] + b;
      RemoveSpacesAppend(a[1..], b);
    }
  }

  lemma {:induction false} RemoveSpacesOfWord(w: string)
    requires NoSpace(w)
    ensures RemoveSpaces(w) == w
    decreases |w|
  {
    if w != [] {
      RemoveSpacesOfWord(w[1..]);
    }
  }

  /** Splitting loses exactly the whitespace: the tokens put back together
      are the line with every whitespace character deleted. */
  lemma {:induction false} SplitKeepsContent(s: string)
    ensures Concat(Split(s)) == RemoveSpaces(s)
    decreases |s|
  {
    if s == [] {
    } else if IsSpace(s[0]) {
      SplitKeepsContent(s[1..]);
    } else {
      var n := WordEnd(s);
      assert s == s[..n] + s[n..];
      RemoveSpacesAppend(s[..n], s[n..]);
      RemoveSpacesOfWord(s[..n]);
      SplitKeepsContent(s[n..]);
      assert Split(s)[1..] == Split(s[n..]);
    }
  }

  lemma {:induction false} SplitDropsLeadingSpace(s: string, n: nat)
    requires n <= |s|
    requires forall k :: 0 <= k < n ==> IsSpace(s[k])
    ensures Split(s[n..]) == Split(s)
    decreases n
  {
    if n > 0 {
      assert s[1..][n - 1..] == s[n..];
      SplitDropsLeadingSpace(s[1..], n - 1);
    }
  }

  lemma {:induction false} SplitIgnoresTrailingSpace(a: string, sp: string)
    requires AllSpace(sp)
    ensures Split(a + sp) == Split(a)
    decreases |a|
  {
    if a == [] {
      assert a + sp == sp;
      SplitSpec(sp);
    } else if IsSpace(a[0]) {
      assert (a + sp)[1..] == a[1..] + sp;
      SplitIgnoresTrailingSpace(a[1..], sp);
    } else {
      var n := WordEnd(a);
      WordEndAppend(a, sp);
      assert (a + sp)[..n] == a[..n];
      assert (a + sp)[n..] == a[n..] + sp;
      SplitIgnoresTrailingSpace(a[n..], sp);
    }
  }

  /** Two words separated by any non-empty run of whitespace split into
      exactly those two words, however wide the gap. */
  lemma SplitSpacedPair(x: string, gap: string, y: string)
    requires IsWord(x) && IsWord(y)
    requires |gap| > 0 && AllSpace(gap)
    ensures Split(x + gap + y) == [x, y]
  {
    var rest := gap + y;
    assert x + gap + y == x + rest;
    SplitWordThen(x, rest);
    SplitDropsLeadingSpace(rest, |gap|);
    assert rest[|gap|..] == y;
    SplitJoin([y]);
  }

  /** `strip()` before `split()` changes nothing: the tokens of a line are
      the tokens of its stripped form. */
  lemma SplitOfStrip(s: string)
    ensures Split(Strip(s)) == Split(s)
  {
    var i := LeadingSpaces(s);
    var t := s[i..];
    var j := TrailingStart(t);
    assert Strip(s) == t[..j];
    assert t == t[..j] + t[j..];
    SplitIgnoresTrailingSpace(t[..j], t[j..]);
    SplitDropsLeadingSpace(s, i);
  }

  /** A string that neither starts nor ends in whitespace is its own `strip()`. */
  lemma StripUnchanged(s: string)
    requires s == [] || (!IsSpace(s[0]) && !IsSpace(s[|s| - 1]))
    ensures Strip(s) == s
  {
    assert LeadingSpaces(s) == 0;
    assert s[0..] == s;
  }

}
